=== FILE: README.md ===
# marvin_behat_product: runtime-environment Behat configuration

A Dafny model of the two per-anchor pipelines of the Drush command classes
`OnboardingCommands` and `RuntimeEnvironmentCommands`. An *anchor* is a
`behat.yml` file that git tracks at the top level or below some directory.

- **Onboarding** (`marvin:onboarding`). For every anchor it writes
  `behat.<id>.yml` next to the anchor, for the current runtime environment
  `<id>`. The text starts from the existing `behat.<id>.yml`, which keeps
  local edits. Failing that it starts from `behat.local.example.yml`, and
  failing that from a built-in template. Then two YAML values are
  rewritten by PCRE replacements with a lookbehind:
  - every `base_url:` line at six spaces of indentation gets the primary URI;
  - for the environment `host` only, every `api_url:` line at twelve spaces
    gets `http://127.0.0.1:9222`.
- **Switch** (`marvin:runtime-environment:switch`). For every anchor it
  builds one request to the symlink-upsert task. The request points
  `behat.local.yml` at `behat.<id>.yml` through a relative link, and says
  to delete the link when that file is missing.

Both pipelines act only in developer mode, that is when `<projectRoot>/tests`
exists. Otherwise they contribute no tasks.

Layout, one module per file:

- `lines.dfy` (`Lines`): text as lines. `Split` and `Join` are inverse to
  each other.
- `line_patch.dfy` (`LinePatch`): the field patch read line by line. It
  covers eligible lines, locality, the no-match case and idempotence.
- `lookbehind.dfy` (`Lookbehind`): the regex replacement
  `(?<=\n LABEL).*?(?=\n)` as a character-level scan. A lemma for all
  inputs proves it equal to the line-level patch.
- `paths.dfy`, `anchors.dfy` (`Paths`, `Anchors`): directory parts and the
  file names that belong to an anchor.
- `filesystem.dfy` (`Filesystem`): a snapshot `map<string, Entry>` of files
  and directories, reads that may fail, and whole-file writes.
- `tasks.dfy` (`Tasks`): the task map both commands return, behind the
  developer-mode gate.
- `onboarding.dfy` (`Onboarding`): the per-file step, the run over the
  discovered files, and their properties.
- `runtime_environment.dfy` (`RuntimeEnvironment`): the switch requests,
  and how they hand off to onboarding.

The YAML escaper `MarvinUtils::escapeYamlValueString` is a parameter
`esc: string -> string`. The project root and the list of discovered files
are inputs.

### Behaviour worth knowing

- The built-in template has no `api_url` line. So for `host` the `api_url`
  replacement leaves the template's text unchanged.
  `Onboarding.MaterializeFromTemplate` proves the exact output.
- The replacement rewrites every matching line, not just one: every line
  that starts with the label and has a newline before and after it. It
  never touches the first line or an unterminated last line.
- There is no per-anchor error handling. A missing field is skipped
  silently. A read failure ends the step, and the model ends the run over
  the remaining files there. The files the earlier steps wrote stay on
  disk: `Onboarding.Progress` is what a run leaves behind, failed or not.
- The example file is read (lines 89-92) before the existing environment
  file is looked at (lines 94-97). The model assumes that reading a
  directory fails; see the `MarvinUtils::fileGetContents` line under
  "Left out". Under that assumption a directory at the example path fails
  the step even when `behat.<id>.yml` exists.
- The switch only builds requests for the symlink-upsert task. What happens
  on disk (conflict, repoint, no-op) is that task's business, and its code
  is not part of this model.
- `.` does not match a newline but does match `\r`. So on CRLF text a
  patched line loses its `\r`. The scan models this as written.

## Model

| member | source | states |
|---|---|---|
| Tasks.Schedule | Commands/marvin_behat_product/OnboardingCommands.php:43-71 | the task map is empty exactly outside developer mode; otherwise it holds exactly the discovery task (patterns `behat.yml`, `*/behat.yml`, weight 110) and the per-file task (weight 111) that iterates the list discovery publishes |
| Onboarding.TaskDefs | Commands/marvin_behat_product/OnboardingCommands.php:43-71 | onboarding returns no tasks without `<projectRoot>/tests`, and otherwise exactly `collect_behat_yml` at 110 followed by `create_behat_RTE_yml` at 111 running the environment-file step |
| Tasks.DeveloperMode | Commands/marvin_behat_product/OnboardingCommands.php:127-130 | developer mode holds exactly when `<projectRoot>/tests` exists, as a file or a directory; the switch's copy of the test (RuntimeEnvironmentCommands.php lines 92-95) is the same and uses this member too |
| Onboarding.DefaultTemplate | Commands/marvin_behat_product/OnboardingCommands.php:132-139 | the built-in template is the four heredoc lines `default:`, `  extensions:`, `    Drupal\MinkExtension:` and `      base_url: 'http://localhost'`, each ended by a newline |
| Lookbehind.Replace | Commands/marvin_behat_product/OnboardingCommands.php:101-112 | text without a newline has no match, because the lookahead needs a newline after the match; such text is returned unchanged |
| Onboarding.PatchFields | Commands/marvin_behat_product/OnboardingCommands.php:99-113 | a single line without a newline is left unchanged by both replacements |
| Paths.Directory | Commands/marvin_behat_product/OnboardingCommands.php:82 | the directory part is empty for a path without a slash, and otherwise the prefix before the last slash, with no slash after it |
| Anchors.AnchorDir | Commands/marvin_behat_product/OnboardingCommands.php:82-85 | the anchor directory is never empty; it is `.` for a path without a slash; otherwise it is `.` or the directory from which the path is rebuilt by adding a slash and its base name |
| Anchors.AnchorDirOf | Commands/marvin_behat_product/RuntimeEnvironmentCommands.php:74-77 | a top-level `behat.yml` is anchored at `.`, and a file inside a non-empty directory is anchored at that directory |
| Anchors.DistinctFilesDistinctAnchors | Commands/marvin_behat_product/OnboardingCommands.php:56-57 | two different discovered `behat.yml` paths have different anchor directories |
| Filesystem.ContentOr | Commands/marvin_behat_product/OnboardingCommands.php:89-92 | reading "content if it exists, else the fallback" fails exactly when the path is a directory, and the failure names that path; otherwise it returns the file's content, or the fallback when the path is absent |
| Filesystem.Apply | Commands/marvin_behat_product/OnboardingCommands.php:115 | after a write the path holds the new content and every other path is as it was |
| Onboarding.Materialize | Commands/marvin_behat_product/OnboardingCommands.php:82-115 | the step fails exactly when the example path or the environment path is a directory; otherwise it writes `<dir>/behat.<id>.yml` with the patched starting text, where the starting text is the existing environment file, else the example, else the template |
| Onboarding.MaterializeFrame | Commands/marvin_behat_product/OnboardingCommands.php:89-97 | the step depends on the snapshot only through the example file and the environment file |
| Lookbehind.NoMatchUnchanged | Commands/marvin_behat_product/OnboardingCommands.php:101-105 | when the lookbehind matches at no position that has a newline after it, the replacement returns the text unchanged |
| Lookbehind.AgreesWithLinePatch | Commands/marvin_behat_product/OnboardingCommands.php:101-105 | the character-level replacement equals the line-level patch: every line with a newline before and after it that starts with the label becomes label plus value, and every other character is kept |
| Lookbehind.ReplaceIdempotent | Commands/marvin_behat_product/OnboardingCommands.php:101-105 | running the replacement a second time with the same label and newline-free value changes nothing |
| LinePatch.Locality | Commands/marvin_behat_product/OnboardingCommands.php:101-105 | the patched text has the same number of lines; each eligible labelled line reads label plus value and every other line is unchanged |
| LinePatch.NoTargetUnchanged | Commands/marvin_behat_product/OnboardingCommands.php:101-105 | with no eligible labelled line the text is returned unchanged |
| LinePatch.Idempotent | Commands/marvin_behat_product/OnboardingCommands.php:101-105 | patching twice with the same label and value equals patching once |
| LinePatch.PairLinesAt | Commands/marvin_behat_product/OnboardingCommands.php:99-113 | line by line, the pair of patches for two diverging labels sets each line eligible for the first label to its value, each line eligible for the second to its value, and keeps every other line |
| LinePatch.PairIdempotent | Commands/marvin_behat_product/OnboardingCommands.php:101-112 | repeating the pair of patches for two diverging labels gives the same text as applying the pair once |
| Onboarding.LabelsAreMarkers | Commands/marvin_behat_product/OnboardingCommands.php:102-109 | the two lookbehind labels are `base_url:` after six spaces and `api_url:` after twelve |
| Onboarding.BaseUrlIndentExact | Commands/marvin_behat_product/OnboardingCommands.php:102 | a `base_url:` line is labelled exactly when it is indented by six spaces, not fewer or more |
| Onboarding.ApiUrlIndentExact | Commands/marvin_behat_product/OnboardingCommands.php:109 | an `api_url:` line is labelled exactly when it is indented by twelve spaces |
| Onboarding.PatchFieldsAsLines | Commands/marvin_behat_product/OnboardingCommands.php:99-113 | the two replacements are the `base_url` line patch, followed by the `api_url` line patch when the id is `host` |
| Onboarding.PatchFieldsLines | Commands/marvin_behat_product/OnboardingCommands.php:99-113 | line by line: each eligible `base_url` line gets the escaped URI, each eligible `api_url` line gets the escaped loopback iff the id is `host`, every other line and the line count are unchanged |
| Onboarding.PatchFieldsIdempotent | Commands/marvin_behat_product/OnboardingCommands.php:99-113 | patching already patched text changes nothing, for `host` and for every other id |
| Onboarding.MaterializeIdempotent | Commands/marvin_behat_product/OnboardingCommands.php:94-115 | running the step again on the snapshot its write produced writes the same path with the same bytes |
| Onboarding.BaseUrlPatchesTemplate | Commands/marvin_behat_product/OnboardingCommands.php:132-139 | the built-in template has exactly one eligible `base_url` line, and the patch sets it |
| Onboarding.ApiUrlMissesTemplate | Commands/marvin_behat_product/OnboardingCommands.php:107-113 | the patched template has no `api_url` line, so the `api_url` patch leaves it unchanged |
| Onboarding.MaterializeFromTemplate | Commands/marvin_behat_product/OnboardingCommands.php:89-115 | with neither example nor environment file the step succeeds and writes the template with `base_url: <escaped URI>` and nothing else changed |
| Onboarding.OnboardEach | Commands/marvin_behat_product/OnboardingCommands.php:60-69 | a successful run writes one file per discovered path, in order, each to its anchor's `behat.<id>.yml`, and ends on the snapshot with those writes applied; a failed run names a file that one of the steps reads |
| Onboarding.Progress | Commands/marvin_behat_product/OnboardingCommands.php:60-115 | what a run leaves on disk: the i-th recorded write is exactly what the i-th step writes on the snapshot the writes before it produced, at its anchor's `behat.<id>.yml`; the snapshot is the one those writes produce; when it stops short, the next step fails on that snapshot, so it is the first failing step |
| Onboarding.ProgressOfRun | Commands/marvin_behat_product/OnboardingCommands.php:60-115 | a successful run is exactly what it leaves behind; a failed run stops short of the last file, and its path is the one the first failing step could not read on the snapshot that already holds the earlier steps' writes, which are kept |
| Onboarding.Onboard | Commands/marvin_behat_product/OnboardingCommands.php:43-71 | outside developer mode the run writes nothing and never fails; inside, a successful run writes once per discovered file, in order, each to its anchor's `behat.<id>.yml`, and ends on the snapshot with those writes applied; a failure happens only in developer mode and names a file that one of the steps reads |
| Onboarding.OtherAnchorUnaffected | Commands/marvin_behat_product/OnboardingCommands.php:89-97 | writing one anchor's environment file does not change the step of an anchor in another directory |
| Onboarding.AnchorsIndependent | Commands/marvin_behat_product/OnboardingCommands.php:60-69 | with distinct anchor directories the run succeeds iff every step succeeds on the initial snapshot, and each write equals that step's own write |
| Onboarding.ApplyAllKeepsPaths | Commands/marvin_behat_product/OnboardingCommands.php:115 | a path present before a sequence of writes is present after it |
| Onboarding.ApplyAllWritesFiles | Commands/marvin_behat_product/OnboardingCommands.php:115 | after a sequence of writes every written path holds a file |
| RuntimeEnvironment.TaskDefs | Commands/marvin_behat_product/RuntimeEnvironmentCommands.php:51-89 | the switch returns no tasks without `<projectRoot>/tests`, and otherwise exactly discovery at 110 and the link update towards the requested id at 111 |
| RuntimeEnvironment.Upsert | Commands/marvin_behat_product/RuntimeEnvironmentCommands.php:73-86 | the request deletes on a missing source; the link is `<anchor dir>/behat.local.yml`; the target written into the link is `behat.<id>.yml`, and the source is that name inside the anchor directory, so the link resolves to the source |
| RuntimeEnvironment.Requests | Commands/marvin_behat_product/RuntimeEnvironmentCommands.php:51-89 | no requests outside developer mode; otherwise exactly one request per discovered file, in discovery order |
| RuntimeEnvironment.EnvironmentFileNameInjective | Commands/marvin_behat_product/RuntimeEnvironmentCommands.php:84-85 | different environment ids give different `behat.<id>.yml` names |
| RuntimeEnvironment.SwitchRetargetsSameLink | Commands/marvin_behat_product/RuntimeEnvironmentCommands.php:83-85 | every environment rewrites the same link; source and target differ exactly when the environments differ; the target does not depend on the anchor directory |
| RuntimeEnvironment.LinkIsSourceOnlyForLocal | Commands/marvin_behat_product/RuntimeEnvironmentCommands.php:83-84 | the link path equals its own source exactly for the environment id `local` |
| RuntimeEnvironment.RequestsTouchDistinctLinks | Commands/marvin_behat_product/RuntimeEnvironmentCommands.php:74-83 | anchors in different directories get requests for different links |
| RuntimeEnvironment.SwitchFindsOnboardedFiles | Commands/marvin_behat_product/RuntimeEnvironmentCommands.php:79-86 | after a successful onboarding run, a switch to the same environment asks for one link per discovered file; the source of the i-th request is exactly the path of the run's i-th write, and it holds a file |

## Left out

- The symlink-upsert task (`taskMarvinSymlinkUpsert`): its code is not part of this model, so only the request record is modelled, not what it does on disk.
- Git discovery (`taskGitListFiles`): the discovered paths are an input sequence. `Anchors.DistinctFilesDistinctAnchors` states why they have distinct anchor directories.
- `ComposerInfo` and `Path::getDirectory` of `composer.json`: the project root is an input.
- Robo wiring: the `taskForEach` deferred iterable, the state bag, hook dispatch, the logger and the closure's return code `0` are left out. A successful step is `Success`.
- I/O: `Filesystem::dumpFile` is a write record applied to the snapshot. Write failures and permissions are left out.
- Symbolic links are not part of the snapshot, because an entry is a file or a directory. The reads of the onboarding step follow links in the program but see only the entry at the path here. This matters for the id `local`, whose environment file path is the path of the `behat.local.yml` link.
- `MarvinUtils::fileGetContents` is not part of this model, so its behaviour on a directory cannot be read off the code. The model assumes that reading a directory fails and that reading a file returns its content. Other read errors are left out.
- `MarvinUtils::escapeYamlValueString` is the parameter `esc`, because its code is not part of this model.
- PCRE: the `/u` failure on invalid UTF-8, where `preg_replace` returns null, is left out. Text is a sequence of characters.
- PCRE: `$n` and `\n` backreferences in the replacement are left out. The replacement is taken literally.
- Symfony `Path::getDirectory` canonicalisation (`.`, `..`, doubled or trailing slashes) is left out. The directory part is the prefix before the last slash, so `/x` has directory `` here but `/` in Symfony.
- `BehatCommands.php` and the integration-test scaffolding are left out: they wrap shell execution and are not part of the two pipelines.
- Lookbehind.ReplaceIdempotent: assumes the label and the replacement hold no newline.
- LinePatch.Locality: assumes the label and the replacement hold no newline, as do LinePatch.Idempotent and LinePatch.PairIdempotent. With a newline in the value the line count changes.
- Onboarding.PatchFieldsLines: assumes `esc` returns newline-free text for the primary URI and the loopback URL.
- Onboarding.PatchFieldsIdempotent: assumes `esc` returns newline-free values, as does Onboarding.MaterializeIdempotent.
- Onboarding.MaterializeFromTemplate: assumes `esc` returns a newline-free value for the primary URI.
- Onboarding.AnchorsIndependent: stated for environment ids without a slash and anchors in distinct directories.
- Onboarding.OnboardEach: a failed run returns only the unreadable path; the files the earlier steps already wrote stay on disk, and Onboarding.Progress and Onboarding.ProgressOfRun state them.
- Onboarding.Onboard: a failed run returns only the unreadable path, as Onboarding.OnboardEach does; the earlier writes are stated by Onboarding.Progress.
- RuntimeEnvironment.Upsert: link name, target and source are stated for every id; the two statements that the source's directory part is the anchor directory and its base name is the target assume an environment id without a slash.
- Lookbehind.Replace: its own contract covers only newline-free text; the full behaviour is stated by Lookbehind.AgreesWithLinePatch.
- Onboarding.PatchFields: its own contract covers only newline-free text; the full behaviour is stated by Onboarding.PatchFieldsAsLines and Onboarding.PatchFieldsLines.

=== FILE: anchors.dfy ===
/**
 The files that belong to one discovered `behat.yml` anchor. All of them sit
 in the anchor's directory:

   behat.local.example.yml   the example the per-environment files start from
   behat.<id>.yml            the file for runtime environment <id>
   behat.local.yml           the link that selects the active environment
 */
module Anchors {
  import opened Paths

  const ExampleFileName := "behat.local.example.yml"
  const LocalLinkFileName := "behat.local.yml"

  /** The directory the anchor's files live in: the directory part of its path, or `.` when that is empty. */
  function AnchorDir(behatFilePath: string): (dir: string)
    ensures dir != ""
    ensures '/' !in behatFilePath ==> dir == "."
    ensures dir == "." || behatFilePath == dir + "/" + BaseName(behatFilePath)
  {
    var d := Directory(behatFilePath);
    if d == "" then "."
    else
      DirectoryAndBaseName(behatFilePath);
      d
  }

  /**
   The anchor directory of a top-level file is `.`, and that of a file
   inside a non-empty directory `d` is `d` itself.
   */
  lemma AnchorDirOf(d: string, name: string)
    requires '/' !in name
    ensures AnchorDir(name) == "."
    ensures d != "" ==> AnchorDir(d + "/" + name) == d
  {
    DirectoryOfJoin(d, name);
  }

  /** The name of the per-environment file, relative to the anchor directory. */
  function EnvironmentFileName(environmentId: string): string
  {
    "behat." + environmentId + ".yml"
  }

  function ExamplePath(dir: string): string
  {
    dir + "/" + ExampleFileName
  }

  function EnvironmentFilePath(dir: string, environmentId: string): string
  {
    dir + "/" + EnvironmentFileName(environmentId)
  }

  function LocalLinkPath(dir: string): string
  {
    dir + "/" + LocalLinkFileName
  }

  /** The link's path spelled out. */
  lemma LocalLinkPathIs(dir: string)
    ensures LocalLinkPath(dir) == dir + "/behat.local.yml"
  {
    assert "/" + LocalLinkFileName == "/behat.local.yml";
    assert dir + "/" + LocalLinkFileName == dir + ("/" + LocalLinkFileName);
  }

  /** The environment file sits directly in its directory when the environment id holds no slash. */
  lemma EnvironmentFileInDir(dir: string, environmentId: string)
    ensures '/' !in environmentId ==>
      && Directory(EnvironmentFilePath(dir, environmentId)) == dir
      && BaseName(EnvironmentFilePath(dir, environmentId)) == EnvironmentFileName(environmentId)
  {
    if '/' !in environmentId {
      DirectoryOfJoin(dir, EnvironmentFileName(environmentId));
    }
  }

  /**
   Paths of files in two different anchor directories never coincide, as
   long as the file names hold no slash.
   */
  lemma DistinctDirsDistinctPaths(d1: string, n1: string, d2: string, n2: string)
    requires '/' !in n1 && '/' !in n2
    requires d1 != d2
    ensures d1 + "/" + n1 != d2 + "/" + n2
  {
    DirectoryOfJoin(d1, n1);
    DirectoryOfJoin(d2, n2);
  }

  /**
   The environment file of one anchor directory is neither the example nor
   the environment file of another.
   */
  lemma OtherAnchorPaths(d1: string, d2: string, environmentId: string)
    requires '/' !in environmentId
    requires d1 != d2
    ensures EnvironmentFilePath(d1, environmentId) != ExamplePath(d2)
    ensures EnvironmentFilePath(d1, environmentId) != EnvironmentFilePath(d2, environmentId)
  {
    var n := EnvironmentFileName(environmentId);
    assert '/' !in n;
    DistinctDirsDistinctPaths(d1, n, d2, ExampleFileName);
    DistinctDirsDistinctPaths(d1, n, d2, n);
  }

  /**
   Two different discovered files with the same base name, both relative and
   neither of them written with a leading `./`, have different anchor
   directories.
   */
  lemma DistinctFilesDistinctAnchors(p: string, q: string)
    requires BaseName(p) == BaseName(q)
    requires Relative(p) && Relative(q)
    requires Directory(p) != "." && Directory(q) != "."
    ensures AnchorDir(p) == AnchorDir(q) ==> p == q
  {
    if AnchorDir(p) == AnchorDir(q) {
      if Directory(p) == "" {
        assert BaseName(p) == p;
        if Directory(q) == "" {
          assert BaseName(q) == q;
        }
      } else if Directory(q) != "" {
        DirectoryAndBaseName(p);
        DirectoryAndBaseName(q);
      }
    }
  }
}

=== FILE: filesystem.dfy ===
/**
 A snapshot of the files and directories the commands look at, keyed by
 path, and the writes they make. Existence is presence in the snapshot, as
 with Symfony's `Filesystem::exists`, which holds for files and directories
 alike.
 */
module Filesystem {

  datatype Entry = File(content: string) | Dir

  type Snapshot = map<string, Entry>

  /** The outcome of a step that reads files: a value, or the path whose content could not be read. */
  datatype Result<T> = Success(value: T) | Failure(unreadable: string)

  /** A full overwrite of the file at `path` with `content`. */
  datatype FileWrite = FileWrite(path: string, content: string)

  predicate Exists(fs: Snapshot, path: string)
  {
    path in fs
  }

  /** `path` exists and is a directory. */
  predicate IsDir(fs: Snapshot, path: string)
  {
    path in fs && fs[path].Dir?
  }

  /**
   The content of `path` when it exists, `fallback` when it does not. A path
   that exists but is a directory has no content to read: the model takes
   that read to fail.
   */
  function ContentOr(fs: Snapshot, path: string, fallback: string): (r: Result<string>)
    ensures r.Failure? <==> IsDir(fs, path)
    ensures r.Failure? ==> r.unreadable == path
    ensures r.Success? ==> r.value == (if path in fs then fs[path].content else fallback)
  {
    if !Exists(fs, path) then Success(fallback)
    else match fs[path]
      case File(c) => Success(c)
      case Dir => Failure(path)
  }

  /** The snapshot after a write: the written path holds the new content, every other path is as before. */
  function Apply(fs: Snapshot, w: FileWrite): (fs': Snapshot)
    ensures w.path in fs' && fs'[w.path] == File(w.content)
    ensures forall p :: p != w.path ==> (p in fs' <==> p in fs)
    ensures forall p :: p != w.path && p in fs ==> fs'[p] == fs[p]
  {
    fs[w.path := File(w.content)]
  }
}

=== FILE: line_patch.dfy ===
/**
 Field patching, stated line by line.

 A field label `m` (for instance six spaces followed by `base_url:`) marks a
 line when the line begins with it. Patching with a replacement `r` turns
 every marked line into `m + r`, but only lines that have a newline both
 before and after them are eligible: the first line of a text and its
 unterminated last line are never touched. This is the line-level reading of
 the lookbehind replacement in module Lookbehind, which proves the two equal.
 */
module LinePatch {
  import opened Lines

  /** `n` space characters. */
  function Spaces(n: nat): (s: string)
    ensures |s| == n
    ensures forall i :: 0 <= i < n ==> s[i] == ' '
  {
    seq(n, _ => ' ')
  }

  /** The label of a YAML key written at indentation `indent`. */
  function Marker(indent: nat, key: string): string
  {
    Spaces(indent) + key + ":"
  }

  /** A line that starts with the label keeps the label and gets `r` after it. */
  function PatchLine(line: string, m: string, r: string): string
  {
    if m <= line then m + r else line
  }

  /** Line `i` of `ls` is eligible: it is neither the first nor the last line, and it starts with `m`. */
  predicate IsTarget(ls: seq<string>, i: int, m: string)
  {
    0 < i < |ls| - 1 && m <= ls[i]
  }

  /** Patches every line of `ls` except the last one. */
  function PatchTerminated(ls: seq<string>, m: string, r: string): (ps: seq<string>)
    ensures |ps| == |ls|
  {
    seq(|ls|, i requires 0 <= i < |ls| => if i < |ls| - 1 then PatchLine(ls[i], m, r) else ls[i])
  }

  /** Patching the terminated lines of `[l] + rest` patches `l` and the terminated lines of `rest`. */
  lemma PatchTerminatedCons(ls: seq<string>, m: string, r: string)
    requires |ls| >= 2
    ensures PatchTerminated(ls, m, r) == [PatchLine(ls[0], m, r)] + PatchTerminated(ls[1..], m, r)
  {
  }

  /** Patches every line of `ls` that has a line before it and a line after it. */
  function PatchLines(ls: seq<string>, m: string, r: string): seq<string>
  {
    if |ls| == 0 then [] else [ls[0]] + PatchTerminated(ls[1..], m, r)
  }

  /** The patched text: eligible lines replaced, everything else as it was. */
  function PatchText(t: string, m: string, r: string): string
  {
    Join(PatchLines(Split(t), m, r))
  }

  /** Line by line, patching replaces the eligible lines by `m + r` and keeps all others. */
  lemma PatchLinesAt(ls: seq<string>, m: string, r: string)
    ensures |PatchLines(ls, m, r)| == |ls|
    ensures forall i :: 0 <= i < |ls| ==>
      PatchLines(ls, m, r)[i] == (if IsTarget(ls, i, m) then m + r else ls[i])
  {
  }

  /** Lines that are already settled are left as they are. */
  lemma SettledLines(ls: seq<string>, m: string, r: string)
    requires forall i :: IsTarget(ls, i, m) ==> ls[i] == m + r
    ensures PatchLines(ls, m, r) == ls
  {
    PatchLinesAt(ls, m, r);
  }

  /**
   Locality: the patched text has exactly as many lines as the original,
   each eligible line marked by `m` reads `m + r`, and every other line is
   unchanged.
   */
  lemma {:induction false} Locality(t: string, m: string, r: string)
    requires '\n' !in m && '\n' !in r
    ensures Split(PatchText(t, m, r)) == PatchLines(Split(t), m, r)
    ensures |Split(PatchText(t, m, r))| == |Split(t)|
    ensures forall i :: 0 <= i < |Split(t)| ==>
      Split(PatchText(t, m, r))[i] == (if IsTarget(Split(t), i, m) then m + r else Split(t)[i])
  {
    SplitPatched(t, m, r);
    PatchLinesAt(Split(t), m, r);
  }

  /** Splitting the patched text gives back the patched lines. */
  lemma {:induction false} SplitPatched(t: string, m: string, r: string)
    requires '\n' !in m && '\n' !in r
    ensures Split(PatchText(t, m, r)) == PatchLines(Split(t), m, r)
  {
    var ps := PatchLines(Split(t), m, r);
    PatchLinesAt(Split(t), m, r);
    assert NoNewlines(ps);
    SplitJoin(ps);
  }

  /** When no line is eligible the text comes back unchanged. */
  lemma {:induction false} NoTargetUnchanged(t: string, m: string, r: string)
    requires forall i :: !IsTarget(Split(t), i, m)
    ensures PatchText(t, m, r) == t
  {
    SettledLines(Split(t), m, r);
    JoinSplit(t);
  }

  /** Patching twice with the same label and value gives the same text as patching once. */
  lemma {:induction false} Idempotent(t: string, m: string, r: string)
    requires '\n' !in m && '\n' !in r
    ensures PatchText(PatchText(t, m, r), m, r) == PatchText(t, m, r)
  {
    Locality(t, m, r);
    var ps := PatchLines(Split(t), m, r);
    SettledLines(ps, m, r);
  }

  /** Two labels diverge when they differ at a position both of them have. */
  ghost predicate Diverge(a: string, b: string)
  {
    exists j :: 0 <= j < |a| && 0 <= j < |b| && a[j] != b[j]
  }

  /** A line that begins with one of two diverging labels does not begin with the other. */
  lemma DivergeNotPrefix(a: string, b: string, x: string)
    requires Diverge(a, b)
    ensures !(a <= b + x)
  {
    var j :| 0 <= j < |a| && 0 <= j < |b| && a[j] != b[j];
    assert (b + x)[j] == b[j];
  }

  /**
   Applying a patch for label `mb` and then one for a diverging label `ma`,
   and repeating the pair, gives the same text as applying the pair once.
   */
  lemma {:induction false} PairIdempotent(t: string, mb: string, rb: string, ma: string, ra: string)
    requires '\n' !in mb && '\n' !in rb && '\n' !in ma && '\n' !in ra
    requires Diverge(ma, mb)
    ensures var once := PatchText(PatchText(t, mb, rb), ma, ra);
            PatchText(PatchText(once, mb, rb), ma, ra) == once
  {
    var t1 := PatchText(t, mb, rb);
    var once := PatchText(t1, ma, ra);
    SplitPatched(t, mb, rb);
    SplitPatched(t1, ma, ra);
    PairSettled(Split(t), mb, rb, ma, ra);
    JoinSplit(once);
  }

  /** After the pair of patches every eligible line is settled for both labels. */
  lemma PairSettled(ls: seq<string>, mb: string, rb: string, ma: string, ra: string)
    requires Diverge(ma, mb)
    ensures var l2 := PatchLines(PatchLines(ls, mb, rb), ma, ra);
            PatchLines(l2, mb, rb) == l2 && PatchLines(l2, ma, ra) == l2
  {
    var l2 := PatchLines(PatchLines(ls, mb, rb), ma, ra);
    PairLinesAt(ls, mb, rb, ma, ra);
    assert Diverge(mb, ma) by {
      var j :| 0 <= j < |ma| && 0 <= j < |mb| && ma[j] != mb[j];
      assert mb[j] != ma[j];
    }
    DivergeNotPrefix(ma, mb, rb);
    DivergeNotPrefix(mb, ma, ra);
    SettledLines(l2, mb, rb);
    SettledLines(l2, ma, ra);
  }

  /**
   Line by line, the pair of patches for diverging labels: a line eligible
   for `mb` gets `rb`, one eligible for `ma` gets `ra`, every other line is
   kept.
   */
  lemma PairLinesAt(ls: seq<string>, mb: string, rb: string, ma: string, ra: string)
    requires Diverge(ma, mb)
    ensures var l2 := PatchLines(PatchLines(ls, mb, rb), ma, ra);
            && |l2| == |ls|
            && forall i :: 0 <= i < |ls| ==>
                 l2[i] == (if IsTarget(ls, i, mb) then mb + rb
                           else if IsTarget(ls, i, ma) then ma + ra
                           else ls[i])
  {
    var l1 := PatchLines(ls, mb, rb);
    PatchLinesAt(ls, mb, rb);
    PatchLinesAt(l1, ma, ra);
    DivergeNotPrefix(ma, mb, rb);
  }
}

=== FILE: lines.dfy ===
/**
 Text as a sequence of lines.

 `Split` cuts a text at every newline character and `Join` glues lines back
 together with one newline between neighbours; the two are inverse to each
 other. A text that ends with a newline splits into lines whose last one is
 empty, so the last line of `Split(t)` is always the part of `t` that no
 newline terminates.
 */
module Lines {

  /** The length of the first line of `s`: the position of its first newline, or `|s|` when it has none. */
  function LineLen(s: string): (k: nat)
    ensures k <= |s|
    ensures forall i :: 0 <= i < k ==> s[i] != '\n'
    ensures k < |s| ==> s[k] == '\n'
    ensures k == |s| <==> '\n' !in s
  {
    if |s| == 0 || s[0] == '\n' then 0 else 1 + LineLen(s[1..])
  }

  /** A newline with none before it ends the first line. */
  lemma LineLenAt(s: string, k: int)
    requires 0 <= k < |s| && s[k] == '\n'
    requires forall i :: 0 <= i < k ==> s[i] != '\n'
    ensures LineLen(s) == k
  {
  }

  /** No line of `ls` holds a newline. */
  predicate NoNewlines(ls: seq<string>)
  {
    forall i :: 0 <= i < |ls| ==> '\n' !in ls[i]
  }

  /** The lines of `s`: the pieces between newlines, first to last. */
  function Split(s: string): (ls: seq<string>)
    ensures |ls| >= 1
    ensures NoNewlines(ls)
    decreases |s|
  {
    var k := LineLen(s);
    if k == |s| then [s]
    else
      assert forall i :: 0 <= i < k ==> s[..k][i] == s[i];
      [s[..k]] + Split(s[k + 1..])
  }

  /** The text made of the lines `ls`, one newline between each two neighbours. */
  function Join(ls: seq<string>): string
  {
    if |ls| == 0 then ""
    else if |ls| == 1 then ls[0]
    else ls[0] + "\n" + Join(ls[1..])
  }

  /** Joining a first line in front of at least one more line puts a newline between them. */
  lemma JoinCons(ls: seq<string>)
    requires |ls| >= 2
    ensures Join(ls) == ls[0] + ("\n" + Join(ls[1..]))
  {
  }

  /** A newline-free first line, a newline and a rest split into that line followed by the rest's lines. */
  lemma SplitCons(a: string, b: string)
    requires '\n' !in a
    ensures Split(a + ("\n" + b)) == [a] + Split(b)
  {
    var s := a + ("\n" + b);
    assert forall i :: 0 <= i < |a| ==> s[i] == a[i];
    LineLenAt(s, |a|);
    assert s[..|a|] == a;
    assert s[|a| + 1..] == b;
  }

  /** Joining the lines of a text gives the text back. */
  lemma {:induction false} JoinSplit(s: string)
    ensures Join(Split(s)) == s
    decreases |s|
  {
    var k := LineLen(s);
    if k < |s| {
      var a := s[..k];
      var b := s[k + 1..];
      assert s == a + ("\n" + b);
      assert forall i :: 0 <= i < k ==> a[i] == s[i];
      SplitCons(a, b);
      JoinSplit(b);
      var ls := [a] + Split(b);
      assert ls[1..] == Split(b);
      JoinCons(ls);
    }
  }

  /** Splitting a joined text gives the lines back, when no line holds a newline. */
  lemma {:induction false} SplitJoin(ls: seq<string>)
    requires |ls| >= 1 && NoNewlines(ls)
    ensures Split(Join(ls)) == ls
  {
    if |ls| > 1 {
      SplitJoin(ls[1..]);
      JoinCons(ls);
      SplitCons(ls[0], Join(ls[1..]));
      assert ls == [ls[0]] + ls[1..];
    }
  }
}

=== FILE: lookbehind.dfy ===
/**
 The PCRE replacement the onboarding step runs on YAML text:

   preg_replace('/(?<=LB).*?(?=\n)/u', R, text)

 where the lookbehind literal LB is a newline, a run of spaces and a key with
 its colon. A match starts at a position whose preceding characters spell LB;
 `.` does not match a newline, so the lazy `.*?` stretches exactly to the next
 newline, which the lookahead demands and leaves in place. A position with no
 newline after it therefore has no match. Every match is replaced by R, read
 literally, and scanning resumes at the newline that ended the match.
 */
module Lookbehind {
  import opened Lines
  import opened LinePatch

  /**
   A match whose lookbehind starts at the head of `t`: `t` begins with `lb`
   and a newline follows somewhere after it.
   */
  predicate MatchesAtHead(t: string, lb: string)
  {
    lb <= t && |lb| + LineLen(t[|lb|..]) < |t|
  }

  /** How far one step of the scan moves: past the match, up to its closing newline, or past one character. */
  function Advance(t: string, lb: string): (k: nat)
    requires |t| > 0 && |lb| > 0
    ensures 0 < k <= |t|
  {
    if MatchesAtHead(t, lb) then |lb| + LineLen(t[|lb|..]) else 1
  }

  /** What one step of the scan emits: the lookbehind text and the replacement, or the character it passes. */
  function Emitted(t: string, lb: string, r: string): string
    requires |t| > 0
  {
    if MatchesAtHead(t, lb) then lb + r else [t[0]]
  }

  /** The replacement as a left-to-right scan of the subject, one step at a time. */
  function Replace(t: string, lb: string, r: string): (out: string)
    requires |lb| > 0
    ensures '\n' !in t ==> out == t
    decreases |t|
  {
    if |t| == 0 then ""
    else Emitted(t, lb, r) + Replace(t[Advance(t, lb)..], lb, r)
  }

  /**
   Position `p` of `t` is a match start: the lookbehind `lb` ends at `p` and
   a newline follows somewhere after `p`.
   */
  ghost predicate MatchAt(t: string, lb: string, p: int)
  {
    |lb| <= p <= |t| && t[p - |lb|..p] == lb && '\n' in t[p..]
  }

  /** One step of the scan where no match starts at the head: the head is copied. */
  lemma CopyStep(t: string, lb: string, r: string)
    requires |lb| > 0 && |t| > 0
    requires !MatchesAtHead(t, lb)
    ensures Replace(t, lb, r) == [t[0]] + Replace(t[1..], lb, r)
  {
    assert Advance(t, lb) == 1;
  }

  /** One step of the scan where a match starts at the head and ends at the newline at position `q`. */
  lemma MatchStep(t: string, lb: string, r: string, q: int)
    requires |lb| > 0 && lb <= t
    requires |lb| <= q < |t| && t[q] == '\n'
    requires forall i :: |lb| <= i < q ==> t[i] != '\n'
    ensures Replace(t, lb, r) == lb + r + Replace(t[q..], lb, r)
  {
    var u := t[|lb|..];
    assert forall i :: 0 <= i < q - |lb| ==> u[i] == t[|lb| + i];
    LineLenAt(u, q - |lb|);
    assert Advance(t, lb) == q;
    assert Emitted(t, lb, r) == lb + r;
  }

  /** A text in which the pattern matches nowhere comes back unchanged. */
  lemma {:induction false} NoMatchUnchanged(t: string, lb: string, r: string)
    requires |lb| > 0
    requires forall p :: !MatchAt(t, lb, p)
    ensures Replace(t, lb, r) == t
    decreases |t|
  {
    if |t| > 0 {
      NoMatchAtHead(t, lb);
      CopyStep(t, lb, r);
      forall p
        ensures !MatchAt(t[1..], lb, p)
      {
        MatchAtShift(t, lb, p);
      }
      NoMatchUnchanged(t[1..], lb, r);
    }
  }

  /** The scan takes the match branch at the head only where a match starts. */
  lemma NoMatchAtHead(t: string, lb: string)
    requires |lb| > 0 && |t| > 0
    requires !MatchAt(t, lb, |lb|)
    ensures !MatchesAtHead(t, lb)
  {
    if lb <= t {
      assert t[0..|lb|] == lb;
    }
  }

  /** A match start in the tail of `t` is a match start in `t`, one position further. */
  lemma MatchAtShift(t: string, lb: string, p: int)
    requires |t| > 0
    ensures MatchAt(t[1..], lb, p) ==> MatchAt(t, lb, p + 1)
  {
    if MatchAt(t[1..], lb, p) {
      assert t[p + 1 - |lb|..p + 1] == t[1..][p - |lb|..p];
      assert t[p + 1..] == t[1..][p..];
    }
  }

  /** Characters before the first newline are copied as they are. */
  lemma {:induction false} CopiesLineHead(s: string, a: string, b: string, lb: string, r: string)
    requires |lb| > 0 && lb[0] == '\n'
    requires '\n' !in a
    requires s == a + b
    ensures Replace(s, lb, r) == a + Replace(b, lb, r)
    decreases |a|
  {
    if |a| > 0 {
      var rest := a[1..] + b;
      HeadCopied(s, a, b, lb, r);
      CopiesLineHead(rest, a[1..], b, lb, r);
      ConsRegroup(a, Replace(b, lb, r));
    } else {
      assert s == b;
    }
  }

  /** A first character that is not a newline cannot start a newline-led lookbehind, so it is copied. */
  lemma HeadCopied(s: string, a: string, b: string, lb: string, r: string)
    requires |lb| > 0 && lb[0] == '\n'
    requires |a| > 0 && a[0] != '\n'
    requires s == a + b
    ensures Replace(s, lb, r) == [a[0]] + Replace(a[1..] + b, lb, r)
  {
    assert s[0] == a[0];
    CopyStep(s, lb, r);
    assert s[1..] == a[1..] + b;
  }

  /** Putting the head of `a` back in front of its tail. */
  lemma ConsRegroup(a: string, x: string)
    requires |a| > 0
    ensures [a[0]] + (a[1..] + x) == a + x
  {
    assert [a[0]] + a[1..] == a;
  }

  /** A newline-led label begins a newline-led text exactly when the label begins the rest of the text. */
  lemma NewlinePrefix(m: string, x: string)
    ensures "\n" + m <= "\n" + x <==> m <= x
  {
    if m <= x {
      assert ("\n" + x)[..|m| + 1] == "\n" + x[..|m|];
    }
    if "\n" + m <= "\n" + x {
      assert x[..|m|] == ("\n" + x)[1..|m| + 1];
    }
  }

  /** The last line, which no newline terminates, is copied. */
  lemma LastLineCopied(l: string, m: string, r: string)
    requires '\n' !in l && '\n' !in m
    ensures Replace("\n" + l, "\n" + m, r) == "\n" + l
  {
    var lb := "\n" + m;
    var s := "\n" + l;
    if lb <= s {
      assert s[|lb|..] == l[|m|..];
    }
    CopyStep(s, lb, r);
    assert s[1..] == l + "";
    CopiesLineHead(s[1..], l, "", lb, r);
  }

  /** A terminated line that starts with `m` is replaced by `m + r`. */
  lemma MarkedLineReplaced(s: string, l: string, j: string, m: string, r: string)
    requires '\n' !in l && '\n' !in m
    requires m <= l
    requires s == "\n" + (l + ("\n" + j))
    ensures Replace(s, "\n" + m, r) == ("\n" + m) + r + Replace("\n" + j, "\n" + m, r)
  {
    var lb := "\n" + m;
    var q := 1 + |l|;
    NewlinePrefix(m, l + ("\n" + j));
    assert forall i :: 1 <= i < q ==> s[i] == l[i - 1];
    assert s[q] == '\n';
    assert s[q..] == "\n" + j;
    MatchStep(s, lb, r, q);
  }

  /** A label without newlines that starts a text starts the text's first line. */
  lemma PrefixStopsAtNewline(m: string, l: string, j: string)
    requires '\n' !in m
    ensures m <= l + ("\n" + j) ==> m <= l
  {
    var x := l + ("\n" + j);
    assert x[|l|] == '\n';
    assert x[..|l|] == l;
  }

  /** A terminated line that does not start with `m` is copied. */
  lemma UnmarkedLineCopied(s: string, l: string, j: string, m: string, r: string)
    requires '\n' !in l && '\n' !in m
    requires !(m <= l)
    requires s == "\n" + (l + ("\n" + j))
    ensures Replace(s, "\n" + m, r) == "\n" + (l + Replace("\n" + j, "\n" + m, r))
  {
    var lb := "\n" + m;
    var x := l + ("\n" + j);
    PrefixStopsAtNewline(m, l, j);
    NewlinePrefix(m, x);
    CopyStep(s, lb, r);
    assert s[1..] == x;
    CopiesLineHead(x, l, "\n" + j, lb, r);
  }

  /** The scan of a newline, a line and a further newline-led text handles the line, then goes on. */
  lemma LineStep(x: string, l: string, j: string, m: string, r: string)
    requires '\n' !in l && '\n' !in m
    requires x == "\n" + (l + ("\n" + j))
    ensures Replace(x, "\n" + m, r) == "\n" + (PatchLine(l, m, r) + Replace("\n" + j, "\n" + m, r))
  {
    if m <= l {
      MarkedLineReplaced(x, l, j, m, r);
      Reassociate("\n", m, r, Replace("\n" + j, "\n" + m, r));
    } else {
      UnmarkedLineCopied(x, l, j, m, r);
    }
  }

  /** Regrouping a concatenation of four texts. */
  lemma Reassociate(a: string, b: string, c: string, d: string)
    ensures (a + b) + c + d == a + ((b + c) + d)
  {
  }

  /** One line further: the claim of `AfterNewline` for `ls` from the claim for its tail. */
  lemma AfterNewlineStep(ls: seq<string>, m: string, r: string)
    requires |ls| >= 2 && NoNewlines(ls)
    requires '\n' !in m
    requires Replace("\n" + Join(ls[1..]), "\n" + m, r) == "\n" + Join(PatchTerminated(ls[1..], m, r))
    ensures Replace("\n" + Join(ls), "\n" + m, r) == "\n" + Join(PatchTerminated(ls, m, r))
  {
    var j := Join(ls[1..]);
    var pt := PatchTerminated(ls, m, r);
    JoinCons(ls);
    LineStep("\n" + Join(ls), ls[0], j, m, r);
    PatchTerminatedCons(ls, m, r);
    assert pt[1..] == PatchTerminated(ls[1..], m, r);
    JoinCons(pt);
  }

  /**
   Scanning from a newline: every line after it that is itself followed by a
   newline is patched, and the last line is copied.
   */
  lemma {:induction false} AfterNewline(ls: seq<string>, m: string, r: string)
    requires |ls| >= 1 && NoNewlines(ls)
    requires '\n' !in m
    ensures Replace("\n" + Join(ls), "\n" + m, r) == "\n" + Join(PatchTerminated(ls, m, r))
    decreases |ls|
  {
    if |ls| == 1 {
      LastLineCopied(ls[0], m, r);
      assert PatchTerminated(ls, m, r) == ls;
    } else {
      AfterNewline(ls[1..], m, r);
      AfterNewlineStep(ls, m, r);
    }
  }

  /**
   The scan agrees with the line-level patch: every line that has a newline
   before and after it and starts with `m` becomes `m + r`, every other
   character is copied.
   */
  lemma {:induction false} AgreesWithLinePatch(t: string, m: string, r: string)
    requires '\n' !in m
    ensures Replace(t, "\n" + m, r) == PatchText(t, m, r)
  {
    var ls := Split(t);
    JoinSplit(t);
    if |ls| == 1 {
      assert t == ls[0] + "";
      CopiesLineHead(t, ls[0], "", "\n" + m, r);
      assert PatchLines(ls, m, r) == ls;
    } else {
      AgreesWithLinePatchMulti(t, ls, m, r);
    }
  }

  /** The bridge for a text of at least two lines: the first line is copied, the rest scanned from the newline. */
  lemma AgreesWithLinePatchMulti(t: string, ls: seq<string>, m: string, r: string)
    requires '\n' !in m
    requires |ls| >= 2 && NoNewlines(ls) && t == Join(ls)
    ensures Replace(t, "\n" + m, r) == Join(PatchLines(ls, m, r))
  {
    var j := Join(ls[1..]);
    var pt := PatchTerminated(ls[1..], m, r);
    JoinCons(ls);
    CopiesLineHead(t, ls[0], "\n" + j, "\n" + m, r);
    AfterNewline(ls[1..], m, r);
    var ps := PatchLines(ls, m, r);
    assert ps[0] == ls[0] && ps[1..] == pt;
    JoinCons(ps);
  }

  /** Running the replacement a second time with the same label and value changes nothing. */
  lemma ReplaceIdempotent(t: string, m: string, r: string)
    requires '\n' !in m && '\n' !in r
    ensures Replace(Replace(t, "\n" + m, r), "\n" + m, r) == Replace(t, "\n" + m, r)
  {
    AgreesWithLinePatch(t, m, r);
    AgreesWithLinePatch(PatchText(t, m, r), m, r);
    Idempotent(t, m, r);
  }
}

=== FILE: onboarding.dfy ===
/**
 The onboarding command: for every discovered `behat.yml` it writes the file
 for the current runtime environment, `behat.<id>.yml`, next to it.

 The file starts from the existing `behat.<id>.yml` when there is one, so
 local customisations survive; otherwise from `behat.local.example.yml`;
 otherwise from a built-in template. Two fields are then patched: every
 `base_url:` line at six spaces of indentation gets the primary URI, and,
 for the runtime environment `host` only, every `api_url:` line at twelve
 spaces gets the local browser endpoint `http://127.0.0.1:9222`.

 The YAML escaping of values is a parameter `esc` of the model: which
 characters it quotes is not part of this model.
 */
module Onboarding {
  import opened Lines
  import opened LinePatch
  import opened Lookbehind
  import opened Filesystem
  import opened Anchors
  import opened Tasks

  const CollectKey := "marvin_behat_product.collect_behat_yml"
  const CreateKey := "marvin_behat_product.create_behat_RTE_yml"

  /**
   The tasks the onboarding event contributes: none outside developer mode,
   otherwise discovery of the `behat.yml` files followed by the per-file
   step that writes the environment file.
   */
  function TaskDefs(fs: Snapshot, projectRoot: string): (defs: map<string, TaskDef>)
    ensures defs == map[] <==> !DeveloperMode(fs, projectRoot)
    ensures DeveloperMode(fs, projectRoot) ==>
      && CollectThenEach(defs, CollectKey, CreateKey)
      && defs[CollectKey].weight == 110
      && defs[CreateKey].weight == 111
      && defs[CreateKey].task.step == CreateEnvironmentFile
  {
    Schedule(fs, projectRoot, CollectKey, CreateKey, CreateEnvironmentFile)
  }

  /** What the per-file step reads from the shared run state. */
  datatype RunState = RunState(environmentId: string, primaryUri: string)

  const HostId := "host"
  const ApiLoopback := "http://127.0.0.1:9222"

  /** `base_url:` at six spaces: the Mink base URL under `default.extensions`. */
  const BaseUrlLabel := "      base_url:"

  /** `api_url:` at twelve spaces: a browser API endpoint nested one level deeper. */
  const ApiUrlLabel := "            api_url:"

  /** The two labels are the keys `base_url` and `api_url` at six and twelve spaces. */
  lemma LabelsAreMarkers()
    ensures BaseUrlLabel == Marker(6, "base_url")
    ensures ApiUrlLabel == Marker(12, "api_url")
  {
  }

  /** The lines of the built-in template; the last one is empty, as the template ends with a newline. */
  const DefaultTemplateLines: seq<string> :=
    ["default:", "  extensions:", "    Drupal\\MinkExtension:", "      base_url: 'http://localhost'", ""]

  /**
   The built-in template, used when the anchor has no example file: its four
   lines, each ended by a newline.
   */
  function DefaultTemplate(): (t: string)
    ensures t == "default:" + "\n" + "  extensions:" + "\n" + "    Drupal\\MinkExtension:" + "\n"
               + "      base_url: 'http://localhost'" + "\n"
  {
    var ls := DefaultTemplateLines;
    JoinTerminated(ls[0], ls[1], ls[2], ls[3]);
    assert ls == [ls[0], ls[1], ls[2], ls[3], ""];
    Join(ls)
  }

  /** Four lines and an empty last one join into the four lines, each ended by a newline. */
  lemma JoinTerminated(a: string, b: string, c: string, d: string)
    ensures Join([a, b, c, d, ""]) == a + "\n" + b + "\n" + c + "\n" + d + "\n"
  {
    assert Join([d, ""]) == d + "\n" by { JoinCons([d, ""]); assert [d, ""][1..] == [""]; }
    assert Join([c, d, ""]) == c + "\n" + d + "\n" by { JoinCons([c, d, ""]); assert [c, d, ""][1..] == [d, ""]; }
    assert Join([b, c, d, ""]) == b + "\n" + c + "\n" + d + "\n" by {
      JoinCons([b, c, d, ""]);
      assert [b, c, d, ""][1..] == [c, d, ""];
    }
    JoinCons([a, b, c, d, ""]);
    assert [a, b, c, d, ""][1..] == [b, c, d, ""];
  }

  /**
   The two replacements of the step: the `base_url` value always, the
   `api_url` value only for the `host` environment.
   */
  function PatchFields(text: string, environmentId: string, primaryUri: string, esc: string -> string): (r: string)
    ensures '\n' !in text ==> r == text
  {
    var withBase := Replace(text, "\n" + BaseUrlLabel, " " + esc(primaryUri));
    if environmentId == HostId then Replace(withBase, "\n" + ApiUrlLabel, " " + esc(ApiLoopback))
    else withBase
  }

  /** The two replacements, read line by line. */
  lemma {:induction false} PatchFieldsAsLines(text: string, environmentId: string, primaryUri: string, esc: string -> string)
    ensures var withBase := PatchText(text, BaseUrlLabel, " " + esc(primaryUri));
            PatchFields(text, environmentId, primaryUri, esc) ==
              if environmentId == HostId then PatchText(withBase, ApiUrlLabel, " " + esc(ApiLoopback)) else withBase
  {
    AgreesWithLinePatch(text, BaseUrlLabel, " " + esc(primaryUri));
    var withBase := PatchText(text, BaseUrlLabel, " " + esc(primaryUri));
    AgreesWithLinePatch(withBase, ApiUrlLabel, " " + esc(ApiLoopback));
  }

  /**
   The text the step starts from, by precedence: the existing environment
   file, else the example file, else the built-in template.
   */
  function StartingText(fs: Snapshot, dir: string, environmentId: string): string
  {
    var env := EnvironmentFilePath(dir, environmentId);
    var example := ExamplePath(dir);
    if env in fs && fs[env].File? then fs[env].content
    else if example in fs && fs[example].File? then fs[example].content
    else DefaultTemplate()
  }

  /**
   The per-file step for the discovered file `behatFilePath`. It reads the
   example (or takes the template), then the existing environment file (or
   takes that baseline), patches the fields and writes the environment file.
   Reading a directory is taken to fail, as `ContentOr` says. Since the
   example is read first, a directory at its path then fails the step even
   when the environment file exists.
   */
  function Materialize(fs: Snapshot, behatFilePath: string, st: RunState, esc: string -> string): (r: Result<FileWrite>)
    ensures var dir := AnchorDir(behatFilePath);
            r.Failure? <==> IsDir(fs, ExamplePath(dir)) || IsDir(fs, EnvironmentFilePath(dir, st.environmentId))
    ensures var dir := AnchorDir(behatFilePath);
            r.Success? ==> r.value == FileWrite(
              EnvironmentFilePath(dir, st.environmentId),
              PatchFields(StartingText(fs, dir, st.environmentId), st.environmentId, st.primaryUri, esc))
  {
    var dir := AnchorDir(behatFilePath);
    match ContentOr(fs, ExamplePath(dir), DefaultTemplate())
    case Failure(p) => Failure(p)
    case Success(baseline) =>
      var envPath := EnvironmentFilePath(dir, st.environmentId);
      match ContentOr(fs, envPath, baseline)
      case Failure(p) => Failure(p)
      case Success(working) =>
        Success(FileWrite(envPath, PatchFields(working, st.environmentId, st.primaryUri, esc)))
  }

  /** The two labels differ at their seventh character, so no line starts with both. */
  lemma LabelsDiverge()
    ensures Diverge(ApiUrlLabel, BaseUrlLabel)
    ensures '\n' !in BaseUrlLabel && '\n' !in ApiUrlLabel
  {
    assert ApiUrlLabel[6] == ' ';
    assert BaseUrlLabel[6] == 'b';
  }

  /** The `base_url` label matches at exactly six spaces of indentation, not at any other. */
  lemma BaseUrlIndentExact(n: nat, rest: string)
    ensures BaseUrlLabel <= Spaces(n) + "base_url:" + rest <==> n == 6
  {
    var line := Spaces(n) + "base_url:" + rest;
    if n > 6 {
      assert line[6] == ' ';
      assert BaseUrlLabel[6] == 'b';
    } else if n < 6 {
      assert line[n] == 'b';
      assert BaseUrlLabel[n] == ' ';
    } else {
      assert line[..|BaseUrlLabel|] == BaseUrlLabel;
    }
  }

  /** The `api_url` label matches at exactly twelve spaces of indentation, not at any other. */
  lemma ApiUrlIndentExact(n: nat, rest: string)
    ensures ApiUrlLabel <= Spaces(n) + "api_url:" + rest <==> n == 12
  {
    var line := Spaces(n) + "api_url:" + rest;
    if n > 12 {
      assert line[12] == ' ';
      assert ApiUrlLabel[12] == 'a';
    } else if n < 12 {
      assert line[n] == 'a';
      assert ApiUrlLabel[n] == ' ';
    } else {
      assert line[..|ApiUrlLabel|] == ApiUrlLabel;
    }
  }

  /** No line starts with both labels: they differ in their seventh character. */
  lemma LabelsExclusive(x: string)
    ensures !(BaseUrlLabel <= x && ApiUrlLabel <= x)
  {
    if BaseUrlLabel <= x {
      assert x[6] == 'b';
    }
  }

  /**
   Line by line, the written text is the starting text with each eligible
   `base_url` line set to the primary URI, each eligible `api_url` line set
   to the loopback endpoint when the environment is `host`, and every other
   line untouched. Eligible lines have a newline before and after them.
   */
  lemma {:induction false} PatchFieldsLines(text: string, environmentId: string, primaryUri: string, esc: string -> string)
    requires '\n' !in esc(primaryUri) && '\n' !in esc(ApiLoopback)
    ensures var ls := Split(text);
            var out := Split(PatchFields(text, environmentId, primaryUri, esc));
            && |out| == |ls|
            && forall i :: 0 <= i < |ls| ==>
                 out[i] == (if IsTarget(ls, i, BaseUrlLabel) then BaseUrlLabel + (" " + esc(primaryUri))
                            else if environmentId == HostId && IsTarget(ls, i, ApiUrlLabel) then ApiUrlLabel + (" " + esc(ApiLoopback))
                            else ls[i])
  {
    var rb := " " + esc(primaryUri);
    var ra := " " + esc(ApiLoopback);
    LabelsDiverge();
    PatchFieldsAsLines(text, environmentId, primaryUri, esc);
    var withBase := PatchText(text, BaseUrlLabel, rb);
    SplitPatched(text, BaseUrlLabel, rb);
    if environmentId == HostId {
      SplitPatched(withBase, ApiUrlLabel, ra);
      PairLinesAt(Split(text), BaseUrlLabel, rb, ApiUrlLabel, ra);
    } else {
      PatchLinesAt(Split(text), BaseUrlLabel, rb);
    }
  }

  /** Patching the fields of text that is already patched changes nothing. */
  lemma {:induction false} PatchFieldsIdempotent(text: string, environmentId: string, primaryUri: string, esc: string -> string)
    requires '\n' !in esc(primaryUri) && '\n' !in esc(ApiLoopback)
    ensures var once := PatchFields(text, environmentId, primaryUri, esc);
            PatchFields(once, environmentId, primaryUri, esc) == once
  {
    var rb := " " + esc(primaryUri);
    var ra := " " + esc(ApiLoopback);
    LabelsDiverge();
    var once := PatchFields(text, environmentId, primaryUri, esc);
    PatchFieldsAsLines(text, environmentId, primaryUri, esc);
    PatchFieldsAsLines(once, environmentId, primaryUri, esc);
    if environmentId == HostId {
      PairIdempotent(text, BaseUrlLabel, rb, ApiUrlLabel, ra);
    } else {
      Idempotent(text, BaseUrlLabel, rb);
    }
  }

  /**
   Running the step a second time, on the snapshot its first write produced,
   writes the same file with the same bytes.
   */
  lemma {:induction false} MaterializeIdempotent(fs: Snapshot, behatFilePath: string, st: RunState, esc: string -> string)
    requires '\n' !in esc(st.primaryUri) && '\n' !in esc(ApiLoopback)
    requires Materialize(fs, behatFilePath, st, esc).Success?
    ensures var w := Materialize(fs, behatFilePath, st, esc).value;
            Materialize(Apply(fs, w), behatFilePath, st, esc) == Success(w)
  {
    var w := Materialize(fs, behatFilePath, st, esc).value;
    var dir := AnchorDir(behatFilePath);
    var fs' := Apply(fs, w);
    assert StartingText(fs', dir, st.environmentId) == w.content;
    PatchFieldsIdempotent(StartingText(fs, dir, st.environmentId), st.environmentId, st.primaryUri, esc);
  }

  /** The built-in template with its `base_url` value replaced, as lines. */
  function PatchedTemplateLines(value: string): seq<string>
  {
    ["default:", "  extensions:", "    Drupal\\MinkExtension:", BaseUrlLabel + value, ""]
  }

  /** A line that differs from a label at one of the label's positions does not start with it. */
  lemma NotPrefixAt(m: string, line: string, k: nat)
    requires k < |m| && k < |line| && m[k] != line[k]
    ensures !(m <= line)
  {
  }

  /** Of the template's lines only the `base_url` one is eligible for the `base_url` patch. */
  lemma TemplateLinesPatched(rb: string)
    ensures PatchLines(DefaultTemplateLines, BaseUrlLabel, rb) == PatchedTemplateLines(rb)
  {
    var ls := DefaultTemplateLines;
    var ps := PatchLines(ls, BaseUrlLabel, rb);
    PatchLinesAt(ls, BaseUrlLabel, rb);
    assert ls[1][2] == 'e' && BaseUrlLabel[2] == ' ';
    NotPrefixAt(BaseUrlLabel, ls[1], 2);
    assert ls[2][4] == 'D' && BaseUrlLabel[4] == ' ';
    NotPrefixAt(BaseUrlLabel, ls[2], 4);
    assert ls[3][..|BaseUrlLabel|] == BaseUrlLabel;
    assert ps[0] == ls[0];
    assert ps[1] == ls[1];
    assert ps[2] == ls[2];
    assert ps[3] == BaseUrlLabel + rb;
    assert ps[4] == ls[4];
  }

  /** On the built-in template the `base_url` patch fires on its one `base_url` line. */
  lemma BaseUrlPatchesTemplate(rb: string)
    ensures PatchText(DefaultTemplate(), BaseUrlLabel, rb) == Join(PatchedTemplateLines(rb))
  {
    TemplateSplits();
    TemplateLinesPatched(rb);
  }

  /** The built-in template splits back into its lines. */
  lemma TemplateSplits()
    ensures Split(Join(DefaultTemplateLines)) == DefaultTemplateLines
  {
    var ls := DefaultTemplateLines;
    assert '\n' !in ls[0] && '\n' !in ls[1] && '\n' !in ls[2] && '\n' !in ls[3] && '\n' !in ls[4];
    SplitJoin(ls);
  }

  /** None of the patched template's lines starts with the `api_url` label. */
  lemma PatchedTemplateLinesSettled(rb: string, ra: string)
    ensures PatchLines(PatchedTemplateLines(rb), ApiUrlLabel, ra) == PatchedTemplateLines(rb)
  {
    var ps := PatchedTemplateLines(rb);
    assert ps[1][2] == 'e' && ApiUrlLabel[2] == ' ';
    NotPrefixAt(ApiUrlLabel, ps[1], 2);
    assert ps[2][4] == 'D' && ApiUrlLabel[4] == ' ';
    NotPrefixAt(ApiUrlLabel, ps[2], 4);
    assert ps[3][6] == 'b' && ApiUrlLabel[6] == ' ';
    NotPrefixAt(ApiUrlLabel, ps[3], 6);
    var qs := PatchLines(ps, ApiUrlLabel, ra);
    PatchLinesAt(ps, ApiUrlLabel, ra);
    assert qs[0] == ps[0];
    assert qs[1] == ps[1];
    assert qs[2] == ps[2];
    assert qs[3] == ps[3];
    assert qs[4] == ps[4];
  }

  /** The patched template has no `api_url` line, so the `api_url` patch leaves it as it is. */
  lemma ApiUrlMissesTemplate(rb: string, ra: string)
    requires '\n' !in rb
    ensures PatchText(Join(PatchedTemplateLines(rb)), ApiUrlLabel, ra) == Join(PatchedTemplateLines(rb))
  {
    var ps := PatchedTemplateLines(rb);
    assert '\n' !in BaseUrlLabel + rb;
    assert NoNewlines(ps);
    SplitJoin(ps);
    PatchedTemplateLinesSettled(rb, ra);
  }

  /** The `base_url` line with a value after the label's separating space. */
  lemma BaseUrlLine(value: string)
    ensures BaseUrlLabel + (" " + value) == "      base_url: " + value
  {
    assert BaseUrlLabel + " " == "      base_url: ";
    assert BaseUrlLabel + (" " + value) == (BaseUrlLabel + " ") + value;
  }

  /**
   An anchor with neither an example nor an environment file gets the
   built-in template with its one `base_url` line set to the primary URI: on
   the template the patch always fires. The template has no `api_url` line,
   so for `host` nothing more changes.
   */
  lemma {:induction false} MaterializeFromTemplate(fs: Snapshot, behatFilePath: string, st: RunState, esc: string -> string)
    requires '\n' !in esc(st.primaryUri)
    requires ExamplePath(AnchorDir(behatFilePath)) !in fs
    requires EnvironmentFilePath(AnchorDir(behatFilePath), st.environmentId) !in fs
    ensures Materialize(fs, behatFilePath, st, esc).Success?
    ensures Materialize(fs, behatFilePath, st, esc).value.content ==
      Join(["default:", "  extensions:", "    Drupal\\MinkExtension:", "      base_url: " + esc(st.primaryUri), ""])
  {
    var text := StartingText(fs, AnchorDir(behatFilePath), st.environmentId);
    var rb := " " + esc(st.primaryUri);
    PatchFieldsAsLines(text, st.environmentId, st.primaryUri, esc);
    BaseUrlPatchesTemplate(rb);
    ApiUrlMissesTemplate(rb, " " + esc(ApiLoopback));
    BaseUrlLine(esc(st.primaryUri));
  }

  /** The state of a run over the discovered files: the snapshot so far and the writes made, in order. */
  datatype Run = Run(fs: Snapshot, writes: seq<FileWrite>)

  /** The snapshot after applying `ws` in order. */
  function ApplyAll(fs: Snapshot, ws: seq<FileWrite>): Snapshot
    decreases |ws|
  {
    if |ws| == 0 then fs else ApplyAll(Apply(fs, ws[0]), ws[1..])
  }

  /** Writes only add or overwrite: a path present before a sequence of writes is present after it. */
  lemma {:induction false} ApplyAllKeepsPaths(fs: Snapshot, ws: seq<FileWrite>, p: string)
    requires p in fs
    ensures p in ApplyAll(fs, ws)
    decreases |ws|
  {
    if |ws| > 0 {
      ApplyAllKeepsPaths(Apply(fs, ws[0]), ws[1..], p);
    }
  }

  /** After a sequence of writes, every path one of them wrote holds a file. */
  lemma {:induction false} ApplyAllWritesFiles(fs: Snapshot, ws: seq<FileWrite>, i: int)
    requires 0 <= i < |ws|
    ensures ws[i].path in ApplyAll(fs, ws) && ApplyAll(fs, ws)[ws[i].path].File?
    decreases |ws|
  {
    if i == 0 {
      FileStaysFile(Apply(fs, ws[0]), ws[1..], ws[0].path);
    } else {
      ApplyAllWritesFiles(Apply(fs, ws[0]), ws[1..], i - 1);
    }
  }

  /** A path that holds a file keeps holding one through any sequence of writes. */
  lemma {:induction false} FileStaysFile(fs: Snapshot, ws: seq<FileWrite>, p: string)
    requires p in fs && fs[p].File?
    ensures p in ApplyAll(fs, ws) && ApplyAll(fs, ws)[p].File?
    decreases |ws|
  {
    if |ws| > 0 {
      FileStaysFile(Apply(fs, ws[0]), ws[1..], p);
    }
  }

  /** `path` is one of the two files the step for `behatFilePath` reads. */
  predicate ReadBy(path: string, behatFilePath: string, environmentId: string)
  {
    var dir := AnchorDir(behatFilePath);
    path == ExamplePath(dir) || path == EnvironmentFilePath(dir, environmentId)
  }

  /**
   The per-file step over the discovered files, in discovery order, each on
   the snapshot the previous ones left. The first unreadable file ends the
   run.
   */
  function OnboardEach(fs: Snapshot, files: seq<string>, st: RunState, esc: string -> string): (r: Result<Run>)
    ensures r.Success? ==>
      && |r.value.writes| == |files|
      && (forall i :: 0 <= i < |files| ==>
            r.value.writes[i].path == EnvironmentFilePath(AnchorDir(files[i]), st.environmentId))
      && r.value.fs == ApplyAll(fs, r.value.writes)
    ensures r.Failure? ==> exists i :: 0 <= i < |files| && ReadBy(r.unreadable, files[i], st.environmentId)
    decreases |files|
  {
    if |files| == 0 then Success(Run(fs, []))
    else match Materialize(fs, files[0], st, esc)
      case Failure(p) => Failure(p)
      case Success(w) =>
        match OnboardEach(Apply(fs, w), files[1..], st, esc)
        case Failure(p) =>
          ReadByLater(p, files, st.environmentId);
          Failure(p)
        case Success(rest) =>
          WritesCons(w, rest.writes, files, st.environmentId);
          Success(Run(rest.fs, [w] + rest.writes))
  }

  /** A file read for a later discovered file is read for one of the discovered files. */
  lemma ReadByLater(p: string, files: seq<string>, environmentId: string)
    requires |files| > 0
    requires exists i :: 0 <= i < |files[1..]| && ReadBy(p, files[1..][i], environmentId)
    ensures exists i :: 0 <= i < |files| && ReadBy(p, files[i], environmentId)
  {
    var i :| 0 <= i < |files[1..]| && ReadBy(p, files[1..][i], environmentId);
    assert ReadBy(p, files[i + 1], environmentId);
  }

  /** The first write followed by the writes for the later files covers all files, in order. */
  lemma WritesCons(w: FileWrite, ws: seq<FileWrite>, files: seq<string>, environmentId: string)
    requires |files| > 0 && |ws| == |files[1..]|
    requires w.path == EnvironmentFilePath(AnchorDir(files[0]), environmentId)
    requires forall i :: 0 <= i < |files[1..]| ==> ws[i].path == EnvironmentFilePath(AnchorDir(files[1..][i]), environmentId)
    ensures ([w] + ws)[0] == w && ([w] + ws)[1..] == ws
    ensures forall i :: 0 <= i < |files| ==> ([w] + ws)[i].path == EnvironmentFilePath(AnchorDir(files[i]), environmentId)
  {
    assert ([w] + ws)[1..] == ws;
    forall i | 0 < i < |files|
      ensures ([w] + ws)[i].path == EnvironmentFilePath(AnchorDir(files[i]), environmentId)
    {
      assert files[i] == files[1..][i - 1];
    }
  }

  /**
   What a run over `files` leaves behind, whether or not it fails: the
   writes of the steps before the first failing one (of all the steps when
   none fails) and the snapshot they produce. A failing step does not undo
   the files the earlier steps already wrote.
   */
  function Progress(fs: Snapshot, files: seq<string>, st: RunState, esc: string -> string): (r: Run)
    ensures |r.writes| <= |files|
    ensures forall i :: 0 <= i < |r.writes| ==>
              r.writes[i].path == EnvironmentFilePath(AnchorDir(files[i]), st.environmentId)
    ensures r.fs == ApplyAll(fs, r.writes)
    ensures |r.writes| < |files| ==> Materialize(r.fs, files[|r.writes|], st, esc).Failure?
    ensures forall i {:trigger ApplyAll(fs, r.writes[..i])} :: 0 <= i < |r.writes| ==>
              Materialize(ApplyAll(fs, r.writes[..i]), files[i], st, esc) == Success(r.writes[i])
    decreases |files|
  {
    if |files| == 0 then Run(fs, [])
    else match Materialize(fs, files[0], st, esc)
      case Failure(_) => Run(fs, [])
      case Success(w) =>
        var rest := Progress(Apply(fs, w), files[1..], st, esc);
        WritesPrefixCons(w, rest.writes, files, st.environmentId);
        assert |rest.writes| < |files| - 1 ==> files[1..][|rest.writes|] == files[|rest.writes| + 1];
        StepsRecorded(fs, w, rest.writes, files, st, esc);
        Run(rest.fs, [w] + rest.writes)
  }

  /**
   Each recorded write is what its step writes on the snapshot the writes
   before it produced, for a first write followed by the later ones.
   */
  lemma StepsRecorded(fs: Snapshot, w: FileWrite, ws: seq<FileWrite>, files: seq<string>, st: RunState, esc: string -> string)
    requires |files| > 0 && |ws| <= |files| - 1
    requires Materialize(fs, files[0], st, esc) == Success(w)
    requires forall j :: 0 <= j < |ws| ==>
               Materialize(ApplyAll(Apply(fs, w), ws[..j]), files[1..][j], st, esc) == Success(ws[j])
    ensures forall i :: 0 <= i < |[w] + ws| ==>
              Materialize(ApplyAll(fs, ([w] + ws)[..i]), files[i], st, esc) == Success(([w] + ws)[i])
  {
    forall i | 0 <= i < |[w] + ws|
      ensures Materialize(ApplyAll(fs, ([w] + ws)[..i]), files[i], st, esc) == Success(([w] + ws)[i])
    {
      if i == 0 {
        assert ([w] + ws)[..0] == [];
      } else {
        ShiftedIndex(fs, w, ws, files, i);
      }
    }
  }

  /** Index `i` of the writes after a first write `w` is index `i - 1` of the later writes, on the snapshot after `w`. */
  lemma ShiftedIndex(fs: Snapshot, w: FileWrite, ws: seq<FileWrite>, files: seq<string>, i: int)
    requires 0 < i <= |ws| && |ws| <= |files| - 1
    ensures ApplyAll(fs, ([w] + ws)[..i]) == ApplyAll(Apply(fs, w), ws[..i - 1])
    ensures files[i] == files[1..][i - 1]
    ensures ([w] + ws)[i] == ws[i - 1]
  {
    var pre := ([w] + ws)[..i];
    assert pre[0] == w && pre[1..] == ws[..i - 1];
  }

  /** The first write followed by the writes for some of the later files covers a prefix of the files, in order. */
  lemma WritesPrefixCons(w: FileWrite, ws: seq<FileWrite>, files: seq<string>, environmentId: string)
    requires |files| > 0 && |ws| <= |files[1..]|
    requires w.path == EnvironmentFilePath(AnchorDir(files[0]), environmentId)
    requires forall i :: 0 <= i < |ws| ==> ws[i].path == EnvironmentFilePath(AnchorDir(files[1..][i]), environmentId)
    ensures ([w] + ws)[0] == w && ([w] + ws)[1..] == ws
    ensures forall i :: 0 <= i < |[w] + ws| ==> ([w] + ws)[i].path == EnvironmentFilePath(AnchorDir(files[i]), environmentId)
  {
    assert ([w] + ws)[1..] == ws;
    forall i | 0 < i < |[w] + ws|
      ensures ([w] + ws)[i].path == EnvironmentFilePath(AnchorDir(files[i]), environmentId)
    {
      assert files[i] == files[1..][i - 1];
    }
  }

  /**
   The run and what it leaves behind agree: a successful run is exactly its
   progress, and a failed one stops at a step that fails on the snapshot the
   earlier writes produced, naming the path that step could not read.
   */
  lemma ProgressOfRun(fs: Snapshot, files: seq<string>, st: RunState, esc: string -> string)
    ensures var p := Progress(fs, files, st, esc);
            match OnboardEach(fs, files, st, esc)
            case Success(run) => p == run
            case Failure(path) =>
              && |p.writes| < |files|
              && Materialize(p.fs, files[|p.writes|], st, esc) == Failure(path)
  {
    if OnboardEach(fs, files, st, esc).Success? {
      ProgressOfSuccess(fs, files, st, esc);
    } else {
      ProgressOfFailure(fs, files, st, esc);
    }
  }

  /** A successful run is exactly what it leaves behind. */
  lemma {:induction false} ProgressOfSuccess(fs: Snapshot, files: seq<string>, st: RunState, esc: string -> string)
    requires OnboardEach(fs, files, st, esc).Success?
    ensures Progress(fs, files, st, esc) == OnboardEach(fs, files, st, esc).value
    decreases |files|
  {
    if |files| > 0 {
      var w := Materialize(fs, files[0], st, esc).value;
      ProgressOfSuccess(Apply(fs, w), files[1..], st, esc);
    }
  }

  /** A failed run stops short, at a step that fails on what the earlier writes left, with the run's path. */
  lemma {:induction false} ProgressOfFailure(fs: Snapshot, files: seq<string>, st: RunState, esc: string -> string)
    requires OnboardEach(fs, files, st, esc).Failure?
    ensures var p := Progress(fs, files, st, esc);
            && |p.writes| < |files|
            && Materialize(p.fs, files[|p.writes|], st, esc) == Failure(OnboardEach(fs, files, st, esc).unreadable)
    decreases |files|
  {
    match Materialize(fs, files[0], st, esc)
    case Failure(_) =>
    case Success(w) =>
      ProgressOfFailure(Apply(fs, w), files[1..], st, esc);
      var rest := Progress(Apply(fs, w), files[1..], st, esc);
      assert files[1..][|rest.writes|] == files[|rest.writes| + 1];
  }

  /**
   The onboarding run: nothing happens outside developer mode; otherwise
   the per-file step runs over the discovered files.
   */
  function Onboard(fs: Snapshot, projectRoot: string, discovered: seq<string>, st: RunState, esc: string -> string): (r: Result<Run>)
    ensures !DeveloperMode(fs, projectRoot) ==> r == Success(Run(fs, []))
    ensures DeveloperMode(fs, projectRoot) && r.Success? ==>
      && |r.value.writes| == |discovered|
      && (forall i :: 0 <= i < |discovered| ==>
            r.value.writes[i].path == EnvironmentFilePath(AnchorDir(discovered[i]), st.environmentId))
      && r.value.fs == ApplyAll(fs, r.value.writes)
    ensures r.Failure? ==>
      && DeveloperMode(fs, projectRoot)
      && exists i :: 0 <= i < |discovered| && ReadBy(r.unreadable, discovered[i], st.environmentId)
  {
    if TaskDefs(fs, projectRoot) == map[] then Success(Run(fs, []))
    else OnboardEach(fs, discovered, st, esc)
  }

  /** Two snapshots agree at `path`. */
  predicate SameAt(fs: Snapshot, fs': Snapshot, path: string)
  {
    (path in fs <==> path in fs') && (path in fs ==> fs[path] == fs'[path])
  }

  /** The step depends on nothing but the two files it reads. */
  lemma MaterializeFrame(fs: Snapshot, fs': Snapshot, behatFilePath: string, st: RunState, esc: string -> string)
    requires SameAt(fs, fs', ExamplePath(AnchorDir(behatFilePath)))
    requires SameAt(fs, fs', EnvironmentFilePath(AnchorDir(behatFilePath), st.environmentId))
    ensures Materialize(fs', behatFilePath, st, esc) == Materialize(fs, behatFilePath, st, esc)
  {
  }

  /** A write leaves every other path as it was. */
  lemma ApplyElsewhere(fs: Snapshot, w: FileWrite, path: string)
    requires w.path != path
    ensures SameAt(fs, Apply(fs, w), path)
  {
  }

  /** Writing one anchor's environment file leaves the step of any other anchor as it was. */
  lemma OtherAnchorUnaffected(fs: Snapshot, w: FileWrite, p: string, q: string, st: RunState, esc: string -> string)
    requires '/' !in st.environmentId
    requires w.path == EnvironmentFilePath(AnchorDir(p), st.environmentId)
    requires AnchorDir(p) != AnchorDir(q)
    ensures Materialize(Apply(fs, w), q, st, esc) == Materialize(fs, q, st, esc)
  {
    var dq := AnchorDir(q);
    OtherAnchorPaths(AnchorDir(p), dq, st.environmentId);
    ApplyElsewhere(fs, w, ExamplePath(dq));
    ApplyElsewhere(fs, w, EnvironmentFilePath(dq, st.environmentId));
    MaterializeFrame(fs, Apply(fs, w), q, st, esc);
  }

  /** The run over a non-empty list of files: the first step, then the run over the rest on its result. */
  lemma OnboardEachCons(fs: Snapshot, files: seq<string>, st: RunState, esc: string -> string)
    requires |files| > 0 && Materialize(fs, files[0], st, esc).Success?
    ensures var w := Materialize(fs, files[0], st, esc).value;
            var rest := OnboardEach(Apply(fs, w), files[1..], st, esc);
            && (OnboardEach(fs, files, st, esc).Success? <==> rest.Success?)
            && (rest.Success? ==> OnboardEach(fs, files, st, esc).value.writes == [w] + rest.value.writes)
  {
  }

  /** The step for each file, each taken on its own on the snapshot `fs`. */
  function Steps(fs: Snapshot, files: seq<string>, st: RunState, esc: string -> string): (ms: seq<Result<FileWrite>>)
    ensures |ms| == |files|
  {
    seq(|files|, i requires 0 <= i < |files| => Materialize(fs, files[i], st, esc))
  }

  /** Writing the first anchor's environment file leaves the steps of the later files as they were. */
  lemma LaterAnchorsUnaffected(fs: Snapshot, w: FileWrite, files: seq<string>, st: RunState, esc: string -> string)
    requires '/' !in st.environmentId
    requires |files| > 0 && w.path == EnvironmentFilePath(AnchorDir(files[0]), st.environmentId)
    requires forall j :: 0 < j < |files| ==> AnchorDir(files[0]) != AnchorDir(files[j])
    ensures Steps(Apply(fs, w), files[1..], st, esc) == Steps(fs, files, st, esc)[1..]
  {
    var later := Steps(Apply(fs, w), files[1..], st, esc);
    var all := Steps(fs, files, st, esc);
    forall j | 0 <= j < |later|
      ensures later[j] == all[j + 1]
    {
      LaterStepUnaffected(fs, w, files, st, esc, j);
    }
    TailOf(later, all);
  }

  /** A sequence that agrees with `b` shifted by one, and is one shorter, is the tail of `b`. */
  lemma TailOf<T>(a: seq<T>, b: seq<T>)
    requires |b| > 0 && |a| == |b| - 1
    requires forall j :: 0 <= j < |a| ==> a[j] == b[j + 1]
    ensures a == b[1..]
  {
  }

  /** Writing the first anchor's environment file leaves the step of a later file in another directory as it was. */
  lemma LaterStepUnaffected(fs: Snapshot, w: FileWrite, files: seq<string>, st: RunState, esc: string -> string, j: nat)
    requires '/' !in st.environmentId
    requires j < |files| - 1
    requires w.path == EnvironmentFilePath(AnchorDir(files[0]), st.environmentId)
    requires AnchorDir(files[0]) != AnchorDir(files[j + 1])
    ensures Steps(Apply(fs, w), files[1..], st, esc)[j] == Steps(fs, files, st, esc)[j + 1]
  {
    var q := files[j + 1];
    assert files[1..][j] == q;
    StepsAt(Apply(fs, w), files[1..], st, esc, j);
    StepsAt(fs, files, st, esc, j + 1);
    OtherAnchorUnaffected(fs, w, files[0], q, st, esc);
  }

  /** The entry of `Steps` for one file. */
  lemma StepsAt(fs: Snapshot, files: seq<string>, st: RunState, esc: string -> string, i: nat)
    requires i < |files|
    ensures Steps(fs, files, st, esc)[i] == Materialize(fs, files[i], st, esc)
  {
  }

  /**
   The induction step of anchor independence, on the results alone: a run
   whose first step succeeded and whose remainder behaves like the
   remaining steps behaves like all the steps.
   */
  lemma ConsIndependent(all: Result<Run>, rest: Result<Run>, ms: seq<Result<FileWrite>>)
    requires |ms| > 0 && ms[0].Success?
    requires all.Success? <==> rest.Success?
    requires rest.Success? ==> all.value.writes == [ms[0].value] + rest.value.writes
    requires rest.Success? ==> |rest.value.writes| == |ms[1..]|
    requires rest.Success? <==> forall j :: 0 <= j < |ms[1..]| ==> ms[1..][j].Success?
    requires rest.Success? ==> forall j :: 0 <= j < |ms[1..]| ==> rest.value.writes[j] == ms[1..][j].value
    ensures all.Success? <==> forall i :: 0 <= i < |ms| ==> ms[i].Success?
    ensures all.Success? ==> forall i :: 0 <= i < |ms| ==> all.value.writes[i] == ms[i].value
  {
    if all.Success? {
      forall i | 0 < i < |ms|
        ensures ms[i].Success? && all.value.writes[i] == ms[i].value
      {
        assert ms[i] == ms[1..][i - 1];
      }
    } else {
      var j :| 0 <= j < |ms[1..]| && !ms[1..][j].Success?;
      assert ms[j + 1] == ms[1..][j];
    }
  }

  /**
   Anchors are independent: when the discovered files lie in different
   directories, the run over all of them succeeds exactly when each step
   succeeds on the initial snapshot, and writes what each step would write
   on its own.
   */
  lemma {:induction false} AnchorsIndependent(fs: Snapshot, files: seq<string>, st: RunState, esc: string -> string)
    requires '/' !in st.environmentId
    requires forall i, j :: 0 <= i < j < |files| ==> AnchorDir(files[i]) != AnchorDir(files[j])
    ensures var ms := Steps(fs, files, st, esc);
            OnboardEach(fs, files, st, esc).Success? <==> forall i :: 0 <= i < |ms| ==> ms[i].Success?
    ensures var ms := Steps(fs, files, st, esc);
            OnboardEach(fs, files, st, esc).Success? ==>
              forall i :: 0 <= i < |ms| ==> OnboardEach(fs, files, st, esc).value.writes[i] == ms[i].value
    decreases |files|
  {
    if |files| > 0 {
      var ms := Steps(fs, files, st, esc);
      if ms[0].Success? {
        var fs1 := Apply(fs, ms[0].value);
        assert forall j :: 0 < j < |files| ==> AnchorDir(files[0]) != AnchorDir(files[j]);
        LaterAnchorsUnaffected(fs, ms[0].value, files, st, esc);
        AnchorsIndependent(fs1, files[1..], st, esc);
        OnboardEachCons(fs, files, st, esc);
        ConsIndependent(OnboardEach(fs, files, st, esc), OnboardEach(fs1, files[1..], st, esc), ms);
      }
    }
  }
}

=== FILE: paths.dfy ===
/**
 Relative paths as the onboarding and switch steps see them: the directory
 part of a path is everything before its last slash, and a path without a
 slash has an empty directory part, which both steps turn into `.`.
 */
module Paths {

  /** The part of `p` before its last slash; empty when `p` holds no slash. */
  function Directory(p: string): (d: string)
    ensures '/' !in p ==> d == ""
    ensures '/' in p ==> |d| < |p| && p[..|d|] == d && p[|d|] == '/' && '/' !in p[|d| + 1..]
    decreases |p|
  {
    if |p| == 0 then ""
    else if p[|p| - 1] == '/' then p[..|p| - 1]
    else
      var d := Directory(p[..|p| - 1]);
      assert '/' in p ==> '/' in p[..|p| - 1] by {
        if '/' in p {
          var i :| 0 <= i < |p| && p[i] == '/';
          assert p[..|p| - 1][i] == '/';
        }
      }
      assert '/' in p ==> p[|d| + 1..] == p[..|p| - 1][|d| + 1..] + [p[|p| - 1]];
      d
  }

  /** `p` does not start at the root. */
  predicate Relative(p: string)
  {
    |p| == 0 || p[0] != '/'
  }

  /** The part of `p` after its last slash; all of `p` when it holds no slash. */
  function BaseName(p: string): (b: string)
    ensures '/' !in b
  {
    if '/' in p then p[|Directory(p)| + 1..] else p
  }

  /** A path is its directory part, a slash and its base name, when it holds a slash. */
  lemma DirectoryAndBaseName(p: string)
    requires '/' in p
    ensures p == Directory(p) + "/" + BaseName(p)
  {
    var d := Directory(p);
    assert p == p[..|d|] + [p[|d|]] + p[|d| + 1..];
  }

  /**
   Appending a slash and a slash-free name to a directory gives a path whose
   directory part and base name are those two again.
   */
  lemma DirectoryOfJoin(d: string, b: string)
    requires '/' !in b
    ensures Directory(d + "/" + b) == d
    ensures BaseName(d + "/" + b) == b
  {
    var p := d + "/" + b;
    assert p[|d|] == '/';
    var d' := Directory(p);
    assert p[|d| + 1..] == b;
    NoSlashAfter(p, |d'|);
    NoSlashAfter(p, |d|);
    assert |d'| == |d|;
    assert d' == p[..|d|] == d;
  }

  /** No position after `k` holds a slash when the part after `k` holds none. */
  lemma NoSlashAfter(p: string, k: nat)
    requires k < |p| && '/' !in p[k + 1..]
    ensures forall i :: k < i < |p| ==> p[i] != '/'
  {
    forall i | k < i < |p|
      ensures p[i] != '/'
    {
      assert p[k + 1..][i - k - 1] == p[i];
    }
  }
}

=== FILE: runtime_environment.dfy ===
/**
 The runtime-environment switch: for every discovered `behat.yml` it asks
 the symlink-upsert task to point `behat.local.yml` in the anchor's
 directory at the file of the new environment, `behat.<id>.yml`, through a
 relative link, and to delete the link when that file does not exist.

 The model stops at the requests: what the upsert task does on disk is not
 part of this model.
 */
module RuntimeEnvironment {
  import opened Paths
  import opened Filesystem
  import opened Anchors
  import opened Tasks
  import Onboarding

  const CollectKey := "marvin_behat_product.behat_yml.collect"
  const SymlinkUpdateKey := "marvin_behat_product.behat_local_yml.symlink_update"

  /** What the upsert does when the link's source file is missing. */
  const DeleteAction := "delete"

  /**
   The tasks the switch event contributes: none outside developer mode,
   otherwise discovery of the `behat.yml` files followed by the per-file
   link update towards environment `environmentId`.
   */
  function TaskDefs(fs: Snapshot, projectRoot: string, environmentId: string): (defs: map<string, TaskDef>)
    ensures defs == map[] <==> !DeveloperMode(fs, projectRoot)
    ensures DeveloperMode(fs, projectRoot) ==>
      && CollectThenEach(defs, CollectKey, SymlinkUpdateKey)
      && defs[CollectKey].weight == 110
      && defs[SymlinkUpdateKey].weight == 111
      && defs[SymlinkUpdateKey].task.step == UpsertLocalSymlink(environmentId)
  {
    Schedule(fs, projectRoot, CollectKey, SymlinkUpdateKey, UpsertLocalSymlink(environmentId))
  }

  /**
   A request to the symlink-upsert task: the link to create or replace, the
   file it stands for, the target written into the link, and the action
   when that file is missing.
   */
  datatype SymlinkUpsert = SymlinkUpsert(
    symlinkName: string,
    symlinkSrc: string,
    symlinkDst: string,
    actionOnSourceNotExists: string)

  /**
   The request for one discovered `behat.yml`. The link lies next to the
   file it stands for and holds that file's bare name, so it resolves to it
   relative to the link's own directory.
   */
  function Upsert(behatFilePath: string, environmentId: string): (u: SymlinkUpsert)
    ensures u.actionOnSourceNotExists == DeleteAction
    ensures u.symlinkName == AnchorDir(behatFilePath) + "/behat.local.yml"
    ensures u.symlinkDst == "behat." + environmentId + ".yml"
    ensures u.symlinkSrc == AnchorDir(behatFilePath) + "/" + u.symlinkDst
    ensures Directory(u.symlinkName) == AnchorDir(behatFilePath)
    ensures BaseName(u.symlinkName) == LocalLinkFileName
    ensures '/' !in environmentId ==>
      && Directory(u.symlinkSrc) == AnchorDir(behatFilePath)
      && BaseName(u.symlinkSrc) == u.symlinkDst
  {
    var dir := AnchorDir(behatFilePath);
    DirectoryOfJoin(dir, LocalLinkFileName);
    EnvironmentFileInDir(dir, environmentId);
    LocalLinkPathIs(dir);
    SymlinkUpsert(LocalLinkPath(dir), EnvironmentFilePath(dir, environmentId), EnvironmentFileName(environmentId), DeleteAction)
  }

  /** The requests of a switch: none outside developer mode, otherwise one per discovered file, in order. */
  function Requests(fs: Snapshot, projectRoot: string, discovered: seq<string>, environmentId: string): (us: seq<SymlinkUpsert>)
    ensures !DeveloperMode(fs, projectRoot) ==> us == []
    ensures DeveloperMode(fs, projectRoot) ==>
      && |us| == |discovered|
      && forall i :: 0 <= i < |discovered| ==> us[i] == Upsert(discovered[i], environmentId)
  {
    if TaskDefs(fs, projectRoot, environmentId) == map[] then []
    else seq(|discovered|, i requires 0 <= i < |discovered| => Upsert(discovered[i], environmentId))
  }

  /** The environment file name determines the environment id. */
  lemma EnvironmentFileNameInjective(a: string, b: string)
    requires EnvironmentFileName(a) == EnvironmentFileName(b)
    ensures a == b
  {
    var x := EnvironmentFileName(a);
    assert x[6..|x| - 4] == a;
    assert EnvironmentFileName(b)[6..|x| - 4] == b;
  }

  /**
   Switching between two environments rewrites the same link; the link
   stands for a different file exactly when the environments differ. The
   target written into the link is the same in every anchor directory.
   */
  lemma SwitchRetargetsSameLink(behatFilePath: string, otherBehatFilePath: string, a: string, b: string)
    ensures Upsert(behatFilePath, a).symlinkDst == Upsert(otherBehatFilePath, a).symlinkDst
    ensures Upsert(behatFilePath, a).symlinkName == Upsert(behatFilePath, b).symlinkName
    ensures Upsert(behatFilePath, a).symlinkSrc == Upsert(behatFilePath, b).symlinkSrc <==> a == b
    ensures Upsert(behatFilePath, a).symlinkDst == Upsert(behatFilePath, b).symlinkDst <==> a == b
  {
    var dir := AnchorDir(behatFilePath);
    if EnvironmentFilePath(dir, a) == EnvironmentFilePath(dir, b) {
      assert EnvironmentFilePath(dir, a)[|dir| + 1..] == EnvironmentFileName(a);
      assert EnvironmentFilePath(dir, b)[|dir| + 1..] == EnvironmentFileName(b);
      EnvironmentFileNameInjective(a, b);
    }
    if EnvironmentFileName(a) == EnvironmentFileName(b) {
      EnvironmentFileNameInjective(a, b);
    }
  }

  /**
   The link and the file it stands for coincide exactly for the environment
   id `local`, whose environment file is `behat.local.yml` itself.
   */
  lemma LinkIsSourceOnlyForLocal(behatFilePath: string, environmentId: string)
    ensures Upsert(behatFilePath, environmentId).symlinkName == Upsert(behatFilePath, environmentId).symlinkSrc
            <==> environmentId == "local"
  {
    var dir := AnchorDir(behatFilePath);
    assert LocalLinkFileName == EnvironmentFileName("local");
    if LocalLinkPath(dir) == EnvironmentFilePath(dir, environmentId) {
      assert LocalLinkPath(dir)[|dir| + 1..] == LocalLinkFileName;
      assert EnvironmentFilePath(dir, environmentId)[|dir| + 1..] == EnvironmentFileName(environmentId);
      EnvironmentFileNameInjective(environmentId, "local");
    }
  }

  /** Files discovered in different directories get requests for different links. */
  lemma RequestsTouchDistinctLinks(fs: Snapshot, projectRoot: string, discovered: seq<string>, environmentId: string)
    requires forall i, j :: 0 <= i < j < |discovered| ==> AnchorDir(discovered[i]) != AnchorDir(discovered[j])
    ensures var us := Requests(fs, projectRoot, discovered, environmentId);
            forall i, j :: 0 <= i < j < |us| ==> us[i].symlinkName != us[j].symlinkName
  {
    var us := Requests(fs, projectRoot, discovered, environmentId);
    forall i, j | 0 <= i < j < |us|
      ensures us[i].symlinkName != us[j].symlinkName
    {
      DistinctDirsDistinctPaths(AnchorDir(discovered[i]), LocalLinkFileName, AnchorDir(discovered[j]), LocalLinkFileName);
    }
  }

  /**
   Onboarding and the switch agree on file names: after a successful
   onboarding run towards an environment, a switch to that environment asks
   for one link per discovered file, and the source of every one of them is
   a file the run wrote.
   */
  lemma SwitchFindsOnboardedFiles(fs: Snapshot, projectRoot: string, discovered: seq<string>, st: Onboarding.RunState, esc: string -> string)
    requires Onboarding.Onboard(fs, projectRoot, discovered, st, esc).Success?
    ensures var after := Onboarding.Onboard(fs, projectRoot, discovered, st, esc).value.fs;
            var us := Requests(after, projectRoot, discovered, st.environmentId);
            && (DeveloperMode(fs, projectRoot) ==> |us| == |discovered|)
            && (forall i :: 0 <= i < |us| ==> us[i].symlinkSrc in after && after[us[i].symlinkSrc].File?)
            && |us| <= |Onboarding.Onboard(fs, projectRoot, discovered, st, esc).value.writes|
            && (forall i :: 0 <= i < |us| ==>
                  us[i].symlinkSrc == Onboarding.Onboard(fs, projectRoot, discovered, st, esc).value.writes[i].path)
  {
    var run := Onboarding.Onboard(fs, projectRoot, discovered, st, esc).value;
    var us := Requests(run.fs, projectRoot, discovered, st.environmentId);
    if DeveloperMode(fs, projectRoot) {
      Onboarding.ApplyAllKeepsPaths(fs, run.writes, projectRoot + "/tests");
      forall i | 0 <= i < |us|
        ensures us[i].symlinkSrc == run.writes[i].path
        ensures us[i].symlinkSrc in run.fs && run.fs[us[i].symlinkSrc].File?
      {
        Onboarding.ApplyAllWritesFiles(fs, run.writes, i);
      }
    }
  }
}

=== FILE: tasks.dfy ===
/**
 Task definitions as the commands hand them to the task runner: a map from
 task name to a weight and a task. Tasks run in order of weight. The file
 lister publishes the discovered paths as the asset `files` under its asset
 name prefix, and the per-file task iterates over that asset.
 */
module Tasks {
  import opened Filesystem

  /** What the per-file task does with each discovered path. */
  datatype FileStep =
    | CreateEnvironmentFile
    | UpsertLocalSymlink(environmentId: string)

  datatype Task =
    | GitListFiles(paths: seq<string>, assetNamePrefix: string)
    | ForEachFile(iterableAsset: string, step: FileStep)

  datatype TaskDef = TaskDef(weight: int, task: Task)

  /** Tracked files named `behat.yml` at the top level or below some directory. */
  const DiscoveryPatterns: seq<string> := ["behat.yml", "*/behat.yml"]

  const AssetNamePrefix := "marvin_behat_product."

  /** The asset name the file lister publishes its list under. */
  const FilesAsset := "files"

  /** The deferred iterable of the per-file task. */
  const DiscoveredFiles := "marvin_behat_product.files"

  /** The commands only act in a project that has a `tests` directory. */
  predicate DeveloperMode(fs: Snapshot, projectRoot: string): (b: bool)
    ensures b <==> projectRoot + "/tests" in fs
  {
    Exists(fs, projectRoot + "/tests")
  }

  /**
   `defs` holds exactly a discovery task and a per-file task; discovery runs
   first, looks for the `behat.yml` patterns, and publishes the list the
   per-file task iterates over.
   */
  predicate CollectThenEach(defs: map<string, TaskDef>, collectKey: string, eachKey: string)
  {
    && collectKey != eachKey
    && defs.Keys == {collectKey, eachKey}
    && defs[collectKey].task.GitListFiles?
    && defs[collectKey].task.paths == DiscoveryPatterns
    && defs[eachKey].task.ForEachFile?
    && defs[collectKey].weight < defs[eachKey].weight
    && defs[eachKey].task.iterableAsset == defs[collectKey].task.assetNamePrefix + FilesAsset
  }

  /** The discovery task both commands schedule at weight 110. */
  function CollectBehatYml(): TaskDef
  {
    TaskDef(110, GitListFiles(DiscoveryPatterns, AssetNamePrefix))
  }

  /**
   The task map of a command whose per-file step is `step`: empty outside
   developer mode, otherwise discovery at weight 110 under `collectKey` and
   the per-file step at weight 111 under `eachKey`.
   */
  function Schedule(fs: Snapshot, projectRoot: string, collectKey: string, eachKey: string, step: FileStep): (defs: map<string, TaskDef>)
    requires collectKey != eachKey
    ensures defs == map[] <==> !DeveloperMode(fs, projectRoot)
    ensures DeveloperMode(fs, projectRoot) ==>
      && CollectThenEach(defs, collectKey, eachKey)
      && defs[collectKey].weight == 110
      && defs[eachKey].weight == 111
      && defs[eachKey].task.step == step
  {
    if !DeveloperMode(fs, projectRoot) then map[]
    else
      var defs := map[collectKey := CollectBehatYml(), eachKey := TaskDef(111, ForEachFile(DiscoveredFiles, step))];
      assert collectKey in defs;
      defs
  }
}
